=== FILE: README.md ===
# exe-logger in Dafny

A model of the core of the `exe-logger` TypeScript library. It covers:

- **Broadcast server** (`ExeLoggerServer`): the logging side writes chunks into
  the server. The server keeps a bounded history and sends each chunk to every
  registered client socket. A new client first gets the history replayed, one
  awaited write at a time. It joins the live subscriber map only after the whole
  replay has succeeded.
- **Line client** (`ExeLoggerClient.onData`): an accumulator that turns a byte
  stream into newline-terminated lines.
- **Tagged logger** (`ExeLoggerTagged`): the static target registry (coloured
  and raw target lists per level), the per-tag and main levels, the `enabled`
  switch, the level-gating rule of the five logging methods, and the fan-out to
  targets.
- **Back-end argument formatting** (`ExeLogger.format`): every `Buffer` argument
  is cut into 30-byte slices.
- **Hex helpers** (`ExeLoggerHex`): `fromByte`, `fromBytes` and `fromIntBE`.

Everything is a pure function over immutable values. The class-wide static
fields of the tagged logger become one `Registry` value. The server becomes a
`Server` value advanced by events: `Write`, `Accept`, `ReplayDone`,
`ReplayError`, `Resume`, `WriteError`, `SocketError` and `SocketEnd`. A socket is modelled
by the list of chunks written to it. A connection still replaying its history
has its own entry, so `Write` events can interleave with a replay. The replay is
a cursor over the *current* history array, as `for … of` over the live array
behaves. When an eviction shifts the array under the cursor, an item can be
skipped; `Server.ReplaySkipsOnEviction` exhibits this. The end of the replay
loop and the connection handler resuming after `await this.sendHistory(socket)`
are separate events. On resuming, the handler registers the socket and logs a
"New client connected" line through a `Console` built on the server stream, so
that line is ingested like any other write. A chunk written between the two
events goes into the history but never to that client;
`Server.LostBeforeJoin` exhibits this.

Files: `wrappers.dfy` (Option/Result), `bytes.dfy` (bytes, `Flatten`), `hex.dfy`,
`client.dfy`, `format.dfy`, `tagged.dfy`, `server.dfy`.

## Model

| member | source | states |
|---|---|---|
| `Server.NewServer` | src/exe-logger-server.ts:9-17 | a new server has the given history size (10000 by default), index 0, an empty history, no subscribers and no replays, and satisfies the server invariant |
| `Server.Evict` | src/exe-logger-server.ts:70-73 | the shift loop leaves exactly the last `historySize` entries (all of them when there are fewer), so the history never exceeds `historySize` |
| `Server.Ingest` | src/exe-logger-server.ts:69-82 | `_write` keeps the last `historySize` entries of history+chunk; it appends the chunk to the socket of every registered subscriber; it leaves the subscriber set, the replays and the index unchanged; it cannot fail |
| `Server.IngestAll` | src/exe-logger-server.ts:70-73 | after n writes the history is the last min(n, historySize) entries of old history plus chunks, oldest first (historySize 0 keeps it empty) |
| `Server.Connect` | src/exe-logger-server.ts:25-26 | an accepted connection gets id (address, index), the index goes up by one, and a replay starts at history position 0 with nothing written; the set of replaying ids gains exactly that id; subscribers and history are unchanged |
| `Server.ReplayStep` | src/exe-logger-server.ts:55-67 | a replay turn writes the history item under the cursor and advances it; past the end of the current history it marks the loop as over; it never changes the subscriber map, and does nothing for an id whose loop is over |
| `Server.Join` | src/exe-logger-server.ts:21-36 | when the handler resumes after a finished replay, that socket enters the subscriber map and the replay ends, then the connected line is ingested: it joins the history (with eviction) and is written to every subscriber, the new one included; for any other id nothing changes |
| `Server.ReplayFail` | src/exe-logger-server.ts:27-32 | a failed replay write removes exactly that replay, and only while its loop is still writing; the subscriber map, history and index are unchanged |
| `Server.Disconnect` | src/exe-logger-server.ts:46-53 | an unknown id changes nothing (so a second call is a no-op); otherwise exactly that id leaves the map and every other subscriber, the history and the replays are unchanged |
| `Server.StepInv` | src/exe-logger-server.ts:19-82 | every event keeps the invariant (bounded history, ids below the index, no id both replaying and registered, cursor = writes made); an accepted connection's id is not in use; only `Accept` raises the index |
| `Server.JoinsOnlyAfterReplay` | src/exe-logger-server.ts:27-36 | a connection that newly appears in the subscriber map got there by its own handler resuming after its replay loop ended, with as many successful writes as the cursor passed, followed by the connected line |
| `Server.IssuedDistinct` | src/exe-logger-server.ts:26 | in any run, the ids issued by successive connections have strictly increasing indices, so they are pairwise distinct |
| `Server.ReplayAlone` | src/exe-logger-server.ts:25-35 | without interleaved events, one replay turn per history item and a last turn that ends the loop write the whole history in order; the handler resuming then registers the connection, which receives the connected line next, and that line joins the history |
| `Server.ReplaySkipsOnEviction` | src/exe-logger-server.ts:56-73 | with a full history [a, b], a chunk c written after a has been replayed evicts a; the client receives [a, c] and then the connected line, and never receives b |
| `Server.LostBeforeJoin` | src/exe-logger-server.ts:25-37 | a chunk c written after the replay loop has ended but before the handler resumes reaches the history and never the client, which gets only the connected line; the same chunk written after the handler resumed reaches the client right after the connected line |
| `LineClient.IndexOf` | src/exe-logger-client.ts:24 | `indexOf` returns -1 exactly when the byte is absent, else the position of its first occurrence |
| `LineClient.Split` | src/exe-logger-client.ts:23-30 | reference splitter: newline-free lines and a newline-free remainder that together, each line followed by a newline, give back the input |
| `LineClient.OnData` | src/exe-logger-client.ts:21-31 | the loop emits the lines of buffer+data in stream order, each without a newline; the new buffer holds no newline; lines plus newlines plus buffer give back buffer+data; one line per newline; with no newline anywhere nothing is emitted and the buffer is buffer+data |
| `LineClient.SplitCount` | src/exe-logger-client.ts:23-30 | the number of emitted lines equals the number of newlines in the stream |
| `LineClient.DecompositionUnique` | src/exe-logger-client.ts:22-29 | a stream has only one decomposition into newline-free lines plus a newline-free remainder |
| `LineClient.ChunkingInvariant` | src/exe-logger-client.ts:21-31 | from an accumulator without a newline, feeding a stream in any chunking emits the same lines and leaves the same accumulator as feeding it in one call |
| `Format.Explode` | src/exe-logger.ts:69-76 | the slices concatenate back to the buffer; every slice has 1 to 30 bytes and all but the last exactly 30; there are ceil(len/30) of them; an empty buffer gives none |
| `Format.SlicingUnique` | src/exe-logger.ts:72-76 | two such slicings of the same bytes are equal, so the slicing is determined by the bytes |
| `Format.FormatArgs` | src/exe-logger.ts:65-83 | the output has one entry per argument at the same position; non-Buffer arguments pass through unchanged; Buffers become their slicing, with the properties above |
| `Tagged.Initial` | src/exe-logger-tagged.ts:88-101 | initially there are no targets and no tag levels, the main level is INFO and logging is enabled |
| `Tagged.Register` | src/exe-logger-tagged.ts:31-36 | the push loop appends the target to each level's list once per time that level is named, after the existing targets, and other levels are untouched |
| `Tagged.AddTarget` | src/exe-logger-tagged.ts:25-37 | with no levels the target goes under every enum level, otherwise under the given levels only; it is appended after existing targets; other levels and all other state are unchanged |
| `Tagged.AddTargetRaw` | src/exe-logger-tagged.ts:45-57 | the same for the raw-prefix target lists |
| `Tagged.RegistrationOrder` | src/exe-logger-tagged.ts:25-37 | starting from no targets, the list under a level is exactly the registered targets for that level, in registration order |
| `Tagged.Deliver` | src/exe-logger-tagged.ts:113-115 | every target in the list is called once, in list order, with the same prefix and arguments |
| `Tagged.SendToTargets` | src/exe-logger-tagged.ts:111-117 | exactly the targets under the level are called, in order, with the given prefix and arguments; nothing happens when the level has no list |
| `Tagged.TrimLength` | src/exe-logger-tagged.ts:66 | `tag.trim().length` is non-zero exactly when the tag has a non-white-space character |
| `Tagged.SetLevel` | src/exe-logger-tagged.ts:65-71 | a tag with a non-white-space character gets the level and the main level is kept, except that `__proto__` without an entry of its own changes nothing; otherwise only the main level changes; targets and `enabled` are unchanged |
| `Tagged.SetLevels` | src/exe-logger-tagged.ts:73-76 | replacing the levels leaves the target lists and `enabled` unchanged |
| `Tagged.LevelsRoundTrip` | src/exe-logger-tagged.ts:73-83 | `getLevels` after `setLevels` returns what was set, and setting what `getLevels` returned changes nothing |
| `Tagged.NewLogger` | src/exe-logger-tagged.ts:142-150 | a truthy level sets that tag's level (or, for a blank tag, the main level; for `__proto__` without an entry of its own, nothing); with no level or a falsy one the registry is unchanged |
| `Tagged.FormatPrefix` | src/exe-logger-tagged.ts:272-274 | the prefix is bracketed, ends with the tag in brackets, followed inside the brackets by a bar and the name when the name is non-empty |
| `Tagged.Log` | src/exe-logger-tagged.ts:157-270 | disabled: nothing is emitted; a tag naming an `Object.prototype` property with no level of its own (`constructor`, `toString`, `__proto__`, …) emits nothing; otherwise something is emitted only if the tag's own level (when set and truthy), else the main level, is at least the message level; in that case the coloured targets of that level are called, then the raw targets with the uncoloured prefix |
| `Hex.FromByte` | src/exe-logger-hex.ts:2-4 | the digits read back as the number; below 256 exactly two lowercase hex digits, zero-padded below 16 |
| `Hex.FromBytes` | src/exe-logger-hex.ts:12-19 | one string per byte, element i equal to `fromByte` of byte i |
| `Hex.WriteUInt32BE` | src/exe-logger-hex.ts:7-8 | four bytes, most significant first, whose big-endian value is the number |
| `Hex.JoinFromBytes` | src/exe-logger-hex.ts:9 | joining the two-digit strings of some bytes gives 2 digits per byte that read back as the big-endian value of the bytes |
| `Hex.FromIntBE` | src/exe-logger-hex.ts:6-10 | fails exactly outside [0, 2^32); otherwise eight lowercase hex digits that read back as the number, the first pair being the most significant byte and pair i being `fromByte` of byte i |

## Left out

- Sockets, `net.createServer`, `listen` and all `console.*` output are I/O. They appear only as events (accept, write completion or failure, `error`, `end`) and as the list of chunks written to each socket. The `Console` built on the server stream is not I/O: what it prints is ingested by the server itself. The connected line the handler logs is the `line` of the `Resume` event; how `Console` formats it is not modelled.
- Concurrency and event-loop timing: the server is a sequential interleaving of events. Each replay write is issued and completed in one `ReplayDone` step. A `Write` while that write is in flight has the same effect as one right after it: the item was already chosen, and the loop reads the array again only after the write completes.
- `start` adds a target to `ExeLoggerTagged` that prints through the same `Console` into the server stream. This glue between the two modelled parts is not modelled; the writes it causes are `Write` events.
- The connection id string `${remoteAddress}/index-${n}` is kept as the pair (address, index). Rendering it to text is not modelled; distinctness rests on the index.
- Server.ReplayFail: the model treats a failed replay as local; the connection is forgotten and the server carries on. In the source, the handler neither ends nor destroys the socket, but the socket has no `'error'` listener until it is registered (src/exe-logger-server.ts:34). When a write fails, or the client resets the connection during the replay, Node destroys the socket and emits `'error'`. By Node's documented rule, an `'error'` with no listener is thrown, which by default ends the whole process. The model's `SocketError` for a connection still replaying does nothing, where the source would crash.
- Server.IssuedDistinct: the index is a natural number that grows forever. In the source it is a JavaScript number, which stops changing under `++` once it reaches 2^53, after which connection ids repeat. Distinctness in the source therefore holds only for fewer than 2^53 accepted connections.
- `historySize` is a natural number. A negative size would make the eviction loop in `_write` spin forever, and fractional sizes are not modelled.
- `ExeLogger.loadConfig` (file system and JSON), `ExeLogger.progress` (stdout, readline) and the `ExeLogger` constructor's `path.basename` are left out. The constructor is `Tagged.NewLogger` with the tag given directly.
- The level enum and the colour constants are in files that are not part of this model. Levels are integers: they compare with `>=`, and 0 is the only falsy level. Their values are the `LevelValues` parameter and the colours are the `Palette` parameter. `Object.values` of a numeric enum also yields the member names; no lookup ever uses those keys, so `allLevels` holds only the numeric values.
- `useConsole` and the console copy of each message are left out, because they are output only.
- `Tagged.Log` takes the already formatted arguments (the result of `format`). For the tagged logger these are the arguments passed through (`Passed`). For the back-end logger they come from `Format.FormatArgs`.
- The timestamp of `formatPrefix` (`new Date().toISOString()`) is a parameter.
- Arguments other than `Buffer` are opaque values (`Other`); the client's `'ascii'` decoding is left out, so lines stay byte strings.
- Hex.FromByte: negative and fractional numbers (for which `toString(16)` gives a sign or a fraction) are not modelled; the input is a natural number.
- Hex.FromIntBE: fractional inputs, which `writeUInt32BE` truncates, are not modelled; the input is an integer.
- `ExeLoggerNamed` only returns its name and is not modelled.
- Tagged.SetLevels: the source stores the caller's `levels` object by reference, and `getLevels` hands out that same live object. The model copies values. So in the source, `saved = getLevels(); setLevel(l, "x"); setLevels(saved)` keeps "x" at `l`, because `setLevel` wrote into the object `saved.levels` points to; the model restores the old levels. Likewise, a later change by the caller to an object passed to `setLevels` changes the logger's levels. `Tagged.LevelsRoundTrip` is about values only. A levels object passed to `setLevels` is taken to be a plain object that inherits from `Object.prototype`. `setLevels` and `getLevels` assign and read through `this`, and the model takes the receiver to be `ExeLoggerTagged`. Called through a subclass (`ExeLogger.setLevels(config)`), the source creates static properties on the subclass. The gating and `setLevel` never read those, so the gating is unchanged, while `ExeLogger.getLevels()` returns the config.
- Tagged.SendToTargets: targets are callbacks that are assumed to return normally. In the source, a target that throws ends the loop, so the later targets are not called. If it is a coloured target, the raw targets are skipped too, and the exception leaves the logging method. Targets are also assumed not to change the registry while being called. In the source, the loop walks the live list, so a target registered for the same level during the loop is called in that loop too.
- Tagged.Deliver: assumes, as `Tagged.SendToTargets` does, that no target throws and that no target changes the registry while the list is being walked. A target added to the list during the loop is called in the source and not in the model.
- Tagged.Log: assumes that no target throws and that no target changes the registry during a send. Both call lists are computed from the registry as it was before the first call. In the source, the raw list is read only after the coloured loop, so a coloured target that registers a raw target for the level changes the raw send of the same message.

=== FILE: bytes.dfy ===
/** Bytes and byte strings, as carried by Node's `Buffer`. */
module Bytes {

  type byte = x: int | 0 <= x < 256

  /** Concatenation of a sequence of byte strings, in order. */
  function Flatten(parts: seq<seq<byte>>): (r: seq<byte>)
  {
    if |parts| == 0 then [] else parts[0] + Flatten(parts[1..])
  }

  lemma {:induction false} FlattenAppend(a: seq<seq<byte>>, b: seq<seq<byte>>)
    ensures Flatten(a + b) == Flatten(a) + Flatten(b)
  {
    if |a| == 0 {
      assert a + b == b;
    } else {
      assert (a + b)[1..] == a[1..] + b;
      FlattenAppend(a[1..], b);
    }
  }
}

=== FILE: client.dfy ===
/** Line reassembly on the client side (`ExeLoggerClient.onData`): the bytes
    received so far are kept in an accumulator and every complete line is
    emitted as soon as its newline arrives. */
module LineClient {
  import opened Bytes

  const NewLine: byte := 10

  predicate NoNewLine(s: seq<byte>) {
    NewLine !in s
  }

  predicate AllNoNewLine(lines: seq<seq<byte>>) {
    forall i :: 0 <= i < |lines| ==> NoNewLine(lines[i])
  }

  /** `buffer.indexOf(b)`: the first position of `b`, or -1. */
  function IndexOf(s: seq<byte>, b: byte): (i: int)
    ensures -1 <= i < |s|
    ensures i == -1 <==> b !in s
    ensures i >= 0 ==> s[i] == b && b !in s[..i]
  {
    if |s| == 0 then -1
    else if s[0] == b then 0
    else
      var j := IndexOf(s[1..], b);
      assert s == [s[0]] + s[1..];
      assert j >= 0 ==> s[..j + 1] == [s[0]] + s[1..][..j];
      if j < 0 then -1 else j + 1
  }

  /** The byte stream that a sequence of lines came from: each line followed
      by its newline. */
  function Terminated(lines: seq<seq<byte>>): seq<byte>
  {
    if |lines| == 0 then [] else lines[0] + [NewLine] + Terminated(lines[1..])
  }

  function CountNewLines(s: seq<byte>): nat
  {
    if |s| == 0 then 0 else (if s[0] == NewLine then 1 else 0) + CountNewLines(s[1..])
  }

  /** Complete lines found in a stream and the unterminated remainder. */
  datatype Reassembly = Reassembly(lines: seq<seq<byte>>, rest: seq<byte>)

  /** Reference splitter: cut at the first newline, then split what follows. */
  function Split(s: seq<byte>): (r: Reassembly)
    ensures AllNoNewLine(r.lines) && NoNewLine(r.rest)
    ensures Terminated(r.lines) + r.rest == s
    decreases |s|
  {
    var i := IndexOf(s, NewLine);
    if i < 0 then Reassembly([], s)
    else
      var tail := Split(s[i + 1..]);
      CutAtNewLine(s, i, tail.lines, tail.rest);
      Reassembly([s[..i]] + tail.lines, tail.rest)
  }

  /** Cutting a stream at its first newline and decomposing the remainder
      decomposes the stream. */
  lemma CutAtNewLine(s: seq<byte>, i: int, lines: seq<seq<byte>>, rest: seq<byte>)
    requires 0 <= i < |s| && s[i] == NewLine && NoNewLine(s[..i])
    requires AllNoNewLine(lines) && NoNewLine(rest) && Terminated(lines) + rest == s[i + 1..]
    ensures AllNoNewLine([s[..i]] + lines)
    ensures Terminated([s[..i]] + lines) + rest == s
  {

  }

  /** Putting one more complete line in front of a decomposition. */
  lemma ConsDecomposition(line: seq<byte>, lines: seq<seq<byte>>, rest: seq<byte>)
    requires NoNewLine(line) && AllNoNewLine(lines)
    ensures AllNoNewLine([line] + lines)
    ensures Terminated([line] + lines) + rest == line + [NewLine] + (Terminated(lines) + rest)
  {

  }

  /** `onData`: the accumulator is extended by the new chunk, then complete
      lines are cut off its front one by one. Returns the emitted lines and
      the new accumulator. */
  method OnData(buffer: seq<byte>, data: seq<byte>) returns (lines: seq<seq<byte>>, rest: seq<byte>)
    ensures Reassembly(lines, rest) == Split(buffer + data)
    ensures NoNewLine(rest) && AllNoNewLine(lines)
    ensures Terminated(lines) + rest == buffer + data
    ensures |lines| == CountNewLines(buffer + data)
    ensures NoNewLine(buffer) && NoNewLine(data) ==> lines == [] && rest == buffer + data
  {
    rest := buffer + data;
    lines := [];
    while true
      invariant AllNoNewLine(lines)
      invariant Terminated(lines) + rest == buffer + data
      decreases |rest|
    {
      var endOfLine := IndexOf(rest, NewLine);
      if endOfLine == -1 {
        break;
      }
      EmitLine(lines, rest, endOfLine);
      lines := lines + [rest[..endOfLine]];
      rest := rest[endOfLine + 1..];
    }
    TerminatedCount(lines, rest);
    SplitOfDecomposed(lines, rest);
    assert NoNewLine(buffer) && NoNewLine(data) ==> NoNewLine(buffer + data);
  }

  /** Moving the line before the first newline from the accumulator to the
      emitted lines keeps the stream. */
  lemma EmitLine(lines: seq<seq<byte>>, rest: seq<byte>, i: int)
    requires AllNoNewLine(lines)
    requires 0 <= i < |rest| && rest[i] == NewLine && NoNewLine(rest[..i])
    ensures AllNoNewLine(lines + [rest[..i]])
    ensures Terminated(lines + [rest[..i]]) + rest[i + 1..] == Terminated(lines) + rest
  {
    TerminatedAppend(lines, [rest[..i]]);
    assert Terminated([rest[..i]]) == rest[..i] + [NewLine] + Terminated([]);
    assert rest == rest[..i] + [NewLine] + rest[i + 1..];
    AllNoNewLineAppend(lines, [rest[..i]]);
  }

  /** Every newline of the stream ends exactly one emitted line. */
  lemma SplitCount(s: seq<byte>)
    ensures |Split(s).lines| == CountNewLines(s)
  {
    var r := Split(s);
    TerminatedCount(r.lines, r.rest);
  }

  lemma {:induction false} TerminatedCount(lines: seq<seq<byte>>, rest: seq<byte>)
    requires AllNoNewLine(lines) && NoNewLine(rest)
    ensures CountNewLines(Terminated(lines) + rest) == |lines|
  {
    if |lines| == 0 {
      assert Terminated(lines) + rest == rest;
      NoNewLineCount(rest);
    } else {
      var l := lines[0];
      assert Terminated(lines) + rest == l + ([NewLine] + (Terminated(lines[1..]) + rest));
      CountAppend(l, [NewLine] + (Terminated(lines[1..]) + rest));
      NoNewLineCount(l);
      assert ([NewLine] + (Terminated(lines[1..]) + rest))[1..] == Terminated(lines[1..]) + rest;
      TerminatedCount(lines[1..], rest);
    }
  }

  lemma {:induction false} NoNewLineCount(s: seq<byte>)
    requires NoNewLine(s)
    ensures CountNewLines(s) == 0
  {
    if |s| > 0 {
      NoNewLineCount(s[1..]);
    }
  }

  lemma {:induction false} CountAppend(a: seq<byte>, b: seq<byte>)
    ensures CountNewLines(a + b) == CountNewLines(a) + CountNewLines(b)
  {
    if |a| == 0 {
      assert a + b == b;
    } else {
      assert (a + b)[1..] == a[1..] + b;
      CountAppend(a[1..], b);
    }
  }

  /** A stream has only one decomposition into newline-free lines, each
      followed by a newline, and a newline-free remainder. */
  lemma {:induction false} DecompositionUnique(l1: seq<seq<byte>>, r1: seq<byte>, l2: seq<seq<byte>>, r2: seq<byte>)
    requires AllNoNewLine(l1) && NoNewLine(r1) && AllNoNewLine(l2) && NoNewLine(r2)
    requires Terminated(l1) + r1 == Terminated(l2) + r2
    ensures l1 == l2 && r1 == r2
  {
    TerminatedHasNewLine(l1, r1);
    TerminatedHasNewLine(l2, r2);
    if |l1| > 0 && |l2| > 0 {
      var t1 := Terminated(l1[1..]) + r1;
      var t2 := Terminated(l2[1..]) + r2;
      ConsDecomposition(l1[0], l1[1..], r1);
      ConsDecomposition(l2[0], l2[1..], r2);
      assert [l1[0]] + l1[1..] == l1;
      assert [l2[0]] + l2[1..] == l2;
      FirstLineUnique(l1[0], t1, l2[0], t2);
      AllNoNewLineTail(l1);
      AllNoNewLineTail(l2);
      DecompositionUnique(l1[1..], r1, l2[1..], r2);
      assert l1 == [l1[0]] + l1[1..] && l2 == [l2[0]] + l2[1..];
    } else {
      assert Terminated([]) + r1 == r1 && Terminated([]) + r2 == r2;
    }
  }

  /** A stream that starts with a complete line contains a newline. */
  lemma TerminatedHasNewLine(lines: seq<seq<byte>>, rest: seq<byte>)
    ensures |lines| > 0 ==> !NoNewLine(Terminated(lines) + rest)
  {

  }

  lemma AllNoNewLineTail(lines: seq<seq<byte>>)
    requires |lines| > 0 && AllNoNewLine(lines)
    ensures NoNewLine(lines[0]) && AllNoNewLine(lines[1..])
  {

  }

  /** The first newline after a newline-free line is the one ending it. */
  lemma IndexOfLine(line: seq<byte>, tail: seq<byte>)
    requires NoNewLine(line)
    ensures IndexOf(line + [NewLine] + tail, NewLine) == |line|
  {
    var s := line + [NewLine] + tail;
    assert s[|line|] == NewLine;
    assert s[..|line|] == line;
  }

  /** Two streams that agree and each start with a complete line start with
      the same line. */
  lemma FirstLineUnique(a: seq<byte>, t1: seq<byte>, b: seq<byte>, t2: seq<byte>)
    requires NoNewLine(a) && NoNewLine(b)
    requires a + [NewLine] + t1 == b + [NewLine] + t2
    ensures a == b && t1 == t2
  {
    var s := a + [NewLine] + t1;
    IndexOfLine(a, t1);
    IndexOfLine(b, t2);
    assert a == s[..|a|] == b;
    assert t1 == s[|a| + 1..] == t2;
  }

  /** Feeding a stream chunk by chunk: the lines emitted by every `onData`
      call, in call order, and the final accumulator. */
  function FeedAll(buffer: seq<byte>, chunks: seq<seq<byte>>): Reassembly
    decreases |chunks|
  {
    if |chunks| == 0 then Reassembly([], buffer)
    else
      var first := Split(buffer + chunks[0]);
      var later := FeedAll(first.rest, chunks[1..]);
      Reassembly(first.lines + later.lines, later.rest)
  }

  /** However the stream is cut into chunks, the client emits the same lines
      as if the whole stream had arrived at once. The accumulator starts
      empty and never holds a newline between calls (`OnData`). */
  lemma ChunkingInvariant(buffer: seq<byte>, chunks: seq<seq<byte>>)
    requires NoNewLine(buffer)
    ensures FeedAll(buffer, chunks) == Split(buffer + Flatten(chunks))
  {
    var fed := FeedAll(buffer, chunks);
    var whole := Split(buffer + Flatten(chunks));
    FeedAllDecomposes(buffer, chunks);
    DecompositionUnique(fed.lines, fed.rest, whole.lines, whole.rest);
  }

  /** Chunk-by-chunk feeding keeps the stream: the emitted lines and the final
      accumulator give back the initial accumulator followed by every chunk. */
  lemma {:induction false} FeedAllDecomposes(buffer: seq<byte>, chunks: seq<seq<byte>>)
    requires NoNewLine(buffer)
    ensures AllNoNewLine(FeedAll(buffer, chunks).lines) && NoNewLine(FeedAll(buffer, chunks).rest)
    ensures Terminated(FeedAll(buffer, chunks).lines) + FeedAll(buffer, chunks).rest == buffer + Flatten(chunks)
    decreases |chunks|
  {
    var fed := FeedAll(buffer, chunks);
    if |chunks| == 0 {
      assert fed == Reassembly([], buffer);
      assert buffer + Flatten(chunks) == buffer;
      assert Terminated(fed.lines) + fed.rest == buffer;
    } else {
      var first := Split(buffer + chunks[0]);
      FeedAllDecomposes(first.rest, chunks[1..]);
      var later := FeedAll(first.rest, chunks[1..]);
      assert fed == Reassembly(first.lines + later.lines, later.rest);
      TerminatedAppend(first.lines, later.lines);
      AllNoNewLineAppend(first.lines, later.lines);
      FlattenCons(buffer, chunks);
      ConcatStep(Terminated(first.lines), Terminated(later.lines), later.rest, first.rest,
                 Flatten(chunks[1..]), buffer + chunks[0]);
    }
  }

  lemma FlattenCons(buffer: seq<byte>, chunks: seq<seq<byte>>)
    requires |chunks| > 0
    ensures buffer + Flatten(chunks) == (buffer + chunks[0]) + Flatten(chunks[1..])
  {
  }

  /** Regrouping the pieces of the stream after one more chunk. */
  lemma ConcatStep(a: seq<byte>, b: seq<byte>, r: seq<byte>, r0: seq<byte>, more: seq<byte>, s0: seq<byte>)
    requires b + r == r0 + more && a + r0 == s0
    ensures (a + b) + r == s0 + more
  {
    calc {
      (a + b) + r;
      a + (b + r);
      a + (r0 + more);
      (a + r0) + more;
    }
  }

  lemma SplitOfDecomposed(lines: seq<seq<byte>>, rest: seq<byte>)
    requires AllNoNewLine(lines) && NoNewLine(rest)
    ensures Split(Terminated(lines) + rest) == Reassembly(lines, rest)
  {
    var r := Split(Terminated(lines) + rest);
    DecompositionUnique(lines, rest, r.lines, r.rest);
  }

  lemma AllNoNewLineAppend(a: seq<seq<byte>>, b: seq<seq<byte>>)
    requires AllNoNewLine(a) && AllNoNewLine(b)
    ensures AllNoNewLine(a + b)
  {

  }

  lemma {:induction false} TerminatedAppend(a: seq<seq<byte>>, b: seq<seq<byte>>)
    ensures Terminated(a + b) == Terminated(a) + Terminated(b)
  {
    if |a| == 0 {
      assert a + b == b;
    } else {
      assert (a + b)[1..] == a[1..] + b;
      TerminatedAppend(a[1..], b);
    }
  }
}

=== FILE: format.dfy ===
/** Argument formatting of the back-end logger (`ExeLogger.format`): every
    `Buffer` argument is cut into slices of at most 30 bytes, every other
    argument is passed through as it is. */
module Format {
  import opened Bytes

  const SliceSize: nat := 30

  /** A log call argument: a `Buffer`, or any other value (kept opaque as its
      text). */
  datatype Message = Buffer(data: seq<byte>) | Other(text: string)

  /** A formatted argument: the slices of a `Buffer`, or an argument passed
      through unchanged. */
  datatype Formatted = Exploded(slices: seq<seq<byte>>) | Passed(message: Message)

  /** Slices of a byte string: all of exactly `SliceSize` bytes except a last,
      non-empty, shorter-or-equal one. */
  predicate WellSliced(slices: seq<seq<byte>>) {
    && (forall i :: 0 <= i < |slices| ==> 0 < |slices[i]| <= SliceSize)
    && (forall i :: 0 <= i < |slices| - 1 ==> |slices[i]| == SliceSize)
  }

  /** Number of slices a buffer of `n` bytes is cut into: ceil(n / 30). */
  function SliceCount(n: nat): nat {
    (n + SliceSize - 1) / SliceSize
  }

  /** The `while (position < message.length)` loop of `format`: slices
      `[position, min(position + 30, length))` are pushed in order. */
  method Explode(message: seq<byte>) returns (exploded: seq<seq<byte>>)
    ensures Flatten(exploded) == message
    ensures WellSliced(exploded)
    ensures |exploded| == SliceCount(|message|)
    ensures |message| == 0 ==> exploded == []
  {
    var position := 0;
    var nextPosition := 0;
    exploded := [];
    while position < |message|
      invariant 0 <= position <= |message|
      invariant Flatten(exploded) == message[..position]
      invariant WellSliced(exploded)
      invariant position < |message| ==> forall i :: 0 <= i < |exploded| ==> |exploded[i]| == SliceSize
      invariant position < |message| ==> position == SliceSize * |exploded|
      invariant |exploded| == SliceCount(position)
      decreases |message| - position
    {
      nextPosition := if position + SliceSize < |message| then position + SliceSize else |message|;
      FlattenAppend(exploded, [message[position..nextPosition]]);
      assert Flatten([message[position..nextPosition]]) == message[position..nextPosition];
      assert message[..nextPosition] == message[..position] + message[position..nextPosition];
      exploded := exploded + [message[position..nextPosition]];
      position := nextPosition;
    }
    assert message[..|message|] == message;
  }

  /** A well-sliced cut of a byte string is the only one: slicing is
      determined by the bytes alone. */
  lemma {:induction false} SlicingUnique(a: seq<seq<byte>>, b: seq<seq<byte>>)
    requires WellSliced(a) && WellSliced(b) && Flatten(a) == Flatten(b)
    ensures a == b
    decreases |a|
  {
    if |a| > 0 {
      FirstSlice(a);
      FirstSlice(b);
      var n := |a[0]|;
      var m := Flatten(a);
      assert a[0] == m[..n] == b[0];
      assert Flatten(a[1..]) == m[n..] == Flatten(b[1..]);
      TailSliced(a);
      TailSliced(b);
      SlicingUnique(a[1..], b[1..]);
      assert a == [a[0]] + a[1..] && b == [b[0]] + b[1..];
    } else {
      FirstSlice(b);
    }
  }

  /** The first slice takes 30 bytes, or the whole string when it is shorter. */
  lemma FirstSlice(slices: seq<seq<byte>>)
    requires WellSliced(slices)
    ensures |slices| == 0 <==> |Flatten(slices)| == 0
    ensures |slices| > 0 ==>
      var m := Flatten(slices);
      |slices[0]| == (if |m| < SliceSize then |m| else SliceSize) && slices[0] == m[..|slices[0]|]
  {

  }

  lemma TailSliced(slices: seq<seq<byte>>)
    requires |slices| > 0 && WellSliced(slices)
    ensures WellSliced(slices[1..])
  {

  }

  /** `format`: arguments are formatted one by one, in order. */
  method FormatArgs(messages: seq<Message>) returns (formatted: seq<Formatted>)
    ensures |formatted| == |messages|
    ensures forall i :: 0 <= i < |messages| && messages[i].Other? ==> formatted[i] == Passed(messages[i])
    ensures forall i :: 0 <= i < |messages| && messages[i].Buffer? ==>
      && formatted[i].Exploded?
      && Flatten(formatted[i].slices) == messages[i].data
      && WellSliced(formatted[i].slices)
      && |formatted[i].slices| == SliceCount(|messages[i].data|)
  {
    formatted := [];
    for k := 0 to |messages|
      invariant |formatted| == k
      invariant forall i :: 0 <= i < k && messages[i].Other? ==> formatted[i] == Passed(messages[i])
      invariant forall i :: 0 <= i < k && messages[i].Buffer? ==>
        && formatted[i].Exploded?
        && Flatten(formatted[i].slices) == messages[i].data
        && WellSliced(formatted[i].slices)
        && |formatted[i].slices| == SliceCount(|messages[i].data|)
    {
      match messages[k]
      case Buffer(data) =>
        var exploded := Explode(data);
        formatted := formatted + [Exploded(exploded)];
      case Other(_) =>
        formatted := formatted + [Passed(messages[k])];
    }
  }
}

=== FILE: hex.dfy ===
/** Hexadecimal rendering of bytes and of unsigned 32-bit integers
    (`ExeLoggerHex`). */
module Hex {
  import opened Wrappers

  /** A lowercase hexadecimal digit, as produced by `Number.prototype.toString(16)`. */
  predicate IsHexDigit(c: char) {
    '0' <= c <= '9' || 'a' <= c <= 'f'
  }

  predicate IsHex(s: string) {
    forall i :: 0 <= i < |s| ==> IsHexDigit(s[i])
  }

  /** The value of one hexadecimal digit. */
  function DigitValue(c: char): (v: nat)
    requires IsHexDigit(c)
    ensures v < 16
  {
    if c <= '9' then c as int - '0' as int else c as int - 'a' as int + 10
  }

  /** The digit of value `d`. */
  function Digit(d: nat): (c: char)
    requires d < 16
    ensures IsHexDigit(c) && DigitValue(c) == d
  {
    if d < 10 then ('0' as int + d) as char else ('a' as int + d - 10) as char
  }

  /** Reads a hexadecimal string most significant digit first; the empty
      string reads as 0. This is the reference the encoders are checked against. */
  function Parse(s: string): nat
    requires IsHex(s)
  {
    if |s| == 0 then 0 else Parse(s[..|s| - 1]) * 16 + DigitValue(s[|s| - 1])
  }

  /** `n.toString(16)` for a non-negative integer: no leading zeros, "0" for zero. */
  function ToRadix16(n: nat): (s: string)
    ensures IsHex(s) && |s| >= 1
  {
    if n < 16 then [Digit(n)] else ToRadix16(n / 16) + [Digit(n % 16)]
  }

  /** `s.padStart(width, '0')`. */
  function PadStart(s: string, width: nat): (r: string)
  {
    if |s| >= width then s else seq(width - |s|, _ => '0') + s
  }

  /** `fromByte`: a number in base 16, padded with zeros to two digits. */
  function FromByte(b: nat): (s: string)
    ensures IsHex(s) && Parse(s) == b
    ensures b < 256 ==> |s| == 2
    ensures b < 16 ==> s == ['0', Digit(b)]
    ensures 16 <= b < 256 ==> s == [Digit(b / 16), Digit(b % 16)]
  {
    var digits := ToRadix16(b);
    ToRadix16Value(b);
    ParseZeroPrefix(digits, if |digits| >= 2 then 0 else 2 - |digits|);
    assert 16 <= b < 256 ==> ToRadix16(b / 16) == [Digit(b / 16)];
    PadStart(digits, 2)
  }

  lemma {:induction false} ToRadix16Value(n: nat)
    ensures Parse(ToRadix16(n)) == n
  {
    if n >= 16 {
      var s := ToRadix16(n);
      assert s[..|s| - 1] == ToRadix16(n / 16);
      ToRadix16Value(n / 16);
    }
  }

  /** Leading zeros do not change the value read. */
  lemma {:induction false} ParseZeroPrefix(s: string, k: nat)
    requires IsHex(s)
    ensures IsHex(seq(k, _ => '0') + s)
    ensures Parse(seq(k, _ => '0') + s) == Parse(s)
    decreases |s|
  {
    var z := seq(k, _ => '0');
    assert IsHex(z + s) by {
      forall i | 0 <= i < |z + s| ensures IsHexDigit((z + s)[i]) {
        if i < k { assert (z + s)[i] == '0'; } else { assert (z + s)[i] == s[i - k]; }
      }
    }
    if |s| == 0 {
      ParseZeros(k);
      assert z + s == z;
    } else {
      var t := s[..|s| - 1];
      assert (z + s)[..|z + s| - 1] == z + t;
      ParseZeroPrefix(t, k);
    }
  }

  lemma {:induction false} ParseZeros(k: nat)
    ensures IsHex(seq(k, _ => '0'))
    ensures Parse(seq(k, _ => '0')) == 0
  {
    if k > 0 {
      assert seq(k, _ => '0')[..k - 1] == seq(k - 1, _ => '0');
      ParseZeros(k - 1);
    }
  }

  /** `fromBytes`: every byte rendered as a two-digit string, in order. */
  method FromBytes(bytes: seq<nat>) returns (strings: seq<string>)
    ensures |strings| == |bytes|
    ensures forall i :: 0 <= i < |bytes| ==> strings[i] == FromByte(bytes[i])
  {
    strings := [];
    for i := 0 to |bytes|
      invariant |strings| == i
      invariant forall j :: 0 <= j < i ==> strings[j] == FromByte(bytes[j])
    {
      strings := strings + [PadStart(ToRadix16(bytes[i]), 2)];
    }
  }

  /** `join('')`. */
  function Join(parts: seq<string>): string
  {
    if |parts| == 0 then [] else Join(parts[..|parts| - 1]) + parts[|parts| - 1]
  }

  /** The value of a byte string read most significant byte first. */
  function BigEndianValue(bytes: seq<nat>): nat
  {
    if |bytes| == 0 then 0 else BigEndianValue(bytes[..|bytes| - 1]) * 256 + bytes[|bytes| - 1]
  }

  predicate AllBytes(bytes: seq<nat>) {
    forall i :: 0 <= i < |bytes| ==> bytes[i] < 256
  }

  /** Joining the two-digit renderings of bytes gives the big-endian number
      of those bytes, two digits per byte. */
  lemma {:induction false} JoinFromBytes(bytes: seq<nat>, strings: seq<string>)
    requires AllBytes(bytes) && |strings| == |bytes|
    requires forall i :: 0 <= i < |bytes| ==> strings[i] == FromByte(bytes[i])
    ensures |Join(strings)| == 2 * |bytes|
    ensures IsHex(Join(strings)) && Parse(Join(strings)) == BigEndianValue(bytes)
  {
    if |bytes| > 0 {
      var n := |bytes| - 1;
      var head := Join(strings[..n]);
      JoinFromBytes(bytes[..n], strings[..n]);
      var pair := FromByte(bytes[n]);
      assert Join(strings) == head + pair;
      ParseAppendPair(head, pair);
    }
  }

  lemma ParseAppendPair(a: string, p: string)
    requires IsHex(a) && IsHex(p) && |p| == 2
    ensures IsHex(a + p) && Parse(a + p) == Parse(a) * 256 + Parse(p)
  {
    var s := a + p;
    var a0 := a + [p[0]];
    assert s[..|s| - 1] == a0;
    assert a0[..|a|] == a;
    assert Parse(a0) == Parse(a) * 16 + DigitValue(p[0]);
    assert Parse(s) == Parse(a0) * 16 + DigitValue(p[1]);
    assert p[..|p| - 1] == [p[0]];
    assert [p[0]][..0] == [];
    assert Parse([p[0]]) == DigitValue(p[0]);
    assert Parse(p) == DigitValue(p[0]) * 16 + DigitValue(p[1]);
  }

  /** `buffer.writeUInt32BE(n, 0)` for 0 <= n < 2^32: the four bytes of `n`,
      most significant first. */
  function WriteUInt32BE(n: nat): (bytes: seq<nat>)
    requires n < 0x1_0000_0000
    ensures |bytes| == 4 && AllBytes(bytes)
    ensures BigEndianValue(bytes) == n
    ensures bytes[0] == n / 0x100_0000
  {
    var q1 := n / 256;
    var q2 := q1 / 256;
    var q3 := q2 / 256;
    var bytes := [q3, q2 % 256, q1 % 256, n % 256];
    assert q3 < 256;
    assert bytes[..3][..2][..1] == [q3];
    assert [q3][..0] == [];
    assert BigEndianValue(bytes[..1]) == q3;
    assert BigEndianValue(bytes[..2]) == q2 by {
      assert bytes[..2][..1] == bytes[..1];
    }
    assert BigEndianValue(bytes[..3]) == q1 by {
      assert bytes[..3][..2] == bytes[..2];
    }
    assert bytes[..4] == bytes;
    bytes
  }

  datatype RangeError = OutOfRange(value: int)

  /** `fromIntBE`: the eight hex digits of an unsigned 32-bit integer, most
      significant byte first; `writeUInt32BE` throws for values outside
      [0, 2^32). */
  method FromIntBE(n: int) returns (r: Result<string, RangeError>)
    ensures r.Success? <==> 0 <= n < 0x1_0000_0000
    ensures r.Failure? ==> r.error == OutOfRange(n)
    ensures r.Success? ==> |r.value| == 8 && IsHex(r.value) && Parse(r.value) == n
    ensures r.Success? ==> r.value[..2] == FromByte(n / 0x100_0000)
    ensures r.Success? ==> forall i :: 0 <= i < 4 ==>
              r.value[2 * i .. 2 * i + 2] == FromByte(WriteUInt32BE(n)[i])
  {
    if n < 0 || n >= 0x1_0000_0000 {
      return Failure(OutOfRange(n));
    }
    var bytes := WriteUInt32BE(n);
    var strings := FromBytes(bytes);
    JoinFromBytes(bytes, strings);
    var s := Join(strings);
    JoinSlices(strings);
    r := Success(s);
  }

  /** Each two-digit part sits at its own position in the joined string. */
  lemma {:induction false} JoinSlices(parts: seq<string>)
    requires forall i :: 0 <= i < |parts| ==> |parts[i]| == 2
    ensures |Join(parts)| == 2 * |parts|
    ensures forall i :: 0 <= i < |parts| ==> Join(parts)[2 * i .. 2 * i + 2] == parts[i]
  {
    if |parts| > 0 {
      var n := |parts| - 1;
      JoinSlices(parts[..n]);
      var head := Join(parts[..n]);
      assert Join(parts) == head + parts[n];
      forall i | 0 <= i < |parts|
        ensures Join(parts)[2 * i .. 2 * i + 2] == parts[i]
      {
        if i < n {
          assert Join(parts)[2 * i .. 2 * i + 2] == head[2 * i .. 2 * i + 2];
        } else {
          assert Join(parts)[2 * i .. 2 * i + 2] == parts[n];
        }
      }
    }
  }
}

=== FILE: server.dfy ===
/** The broadcast server (`ExeLoggerServer`) as a transition system. Socket
    I/O becomes events: a chunk written by the logging side, a connection
    accepted, one turn of a replay loop, a replay write failing, the
    connection handler resuming after its replay, a live write failing, and a
    socket reporting `error` or `end`. */
module Server {
  import opened Bytes

  /** One chunk written into the server stream. */
  type Chunk = seq<byte>

  /** The connection id `${remoteAddress}/index-${n}`, kept as its two parts. */
  datatype ConnId = ConnId(address: string, index: nat)

  /** A client socket, with everything written to it so far, in write order. */
  datatype Socket = Socket(remoteAddress: string, written: seq<Chunk>)

  /** A connection still waiting to join: `cursor` is the position in the
      live `history` array of the next item `sendHistory` will send, and
      `finished` records that its loop has run out of items (its promise has
      resolved) while the handler's `await` has not resumed yet. */
  datatype Replay = Replay(socket: Socket, cursor: nat, finished: bool)

  datatype Server = Server(
    historySize: nat,
    history: seq<Chunk>,
    sockets: map<ConnId, Socket>,
    index: nat,
    replays: map<ConnId, Replay>)

  /** The constructor: empty history, no subscribers, index 0; the history
      size defaults to 10000. */
  function NewServer(historySize: nat := 10000): (s: Server)
    ensures Inv(s) && s.history == [] && s.sockets == map[] && s.replays == map[]
    ensures s.historySize == historySize && s.index == 0
  {
    Server(historySize, [], map[], 0, map[])
  }

  /** The last `n` items of `items` (all of them when there are fewer). */
  function LastN<T>(items: seq<T>, n: nat): seq<T>
  {
    if |items| <= n then items else items[|items| - n..]
  }

  /** The eviction loop of `_write`: drop the oldest entry while there are too many. */
  function Evict(history: seq<Chunk>, historySize: nat): (r: seq<Chunk>)
    ensures r == LastN(history, historySize)
    ensures |r| <= historySize
    decreases |history|
  {
    if |history| > historySize then Evict(history[1..], historySize) else history
  }

  /** `_write`: append to the history, evict down to `historySize`, then
      write the chunk to every registered socket. Connections still
      replaying receive nothing here. The callback is always called without
      an error, so ingestion never fails. */
  function Ingest(s: Server, chunk: Chunk): (r: Server)
    ensures r.history == LastN(s.history + [chunk], s.historySize)
    ensures |r.history| <= s.historySize
    ensures r.sockets.Keys == s.sockets.Keys
    ensures forall id :: id in s.sockets ==>
      r.sockets[id] == s.sockets[id].(written := s.sockets[id].written + [chunk])
    ensures r.replays == s.replays && r.index == s.index && r.historySize == s.historySize
  {
    var history := Evict(s.history + [chunk], s.historySize);
    var sockets := map id | id in s.sockets :: Send(s.sockets[id], chunk);
    s.(history := history, sockets := sockets)
  }

  /** `socket.write(chunk)` that succeeds. */
  function Send(socket: Socket, chunk: Chunk): Socket
  {
    socket.(written := socket.written + [chunk])
  }

  /** The connection handler of `start`, up to the start of `sendHistory`:
      a fresh id from the next index, and a replay from the first history item. */
  function Connect(s: Server, remoteAddress: string): (r: Server)
    ensures r.index == s.index + 1
    ensures ConnId(remoteAddress, s.index) in r.replays
    ensures r.replays[ConnId(remoteAddress, s.index)] == Replay(Socket(remoteAddress, []), 0, false)
    ensures r.replays.Keys == s.replays.Keys + {ConnId(remoteAddress, s.index)}
    ensures forall id :: id in s.replays && id != ConnId(remoteAddress, s.index) ==>
      id in r.replays && r.replays[id] == s.replays[id]
    ensures r.sockets == s.sockets && r.history == s.history && r.historySize == s.historySize
  {
    var id := ConnId(remoteAddress, s.index);
    s.(index := s.index + 1, replays := s.replays[id := Replay(Socket(remoteAddress, []), 0, false)])
  }

  /** One turn of the `for … of this.history` loop of `sendHistory`: while the
      cursor is inside the current history, the item under it is written and
      the write completes; once past the end, the loop is over and the
      promise of `sendHistory` resolves. Nobody joins the subscriber map
      here, and ids not replaying, or whose loop is over, are left alone. */
  function ReplayStep(s: Server, id: ConnId): (r: Server)
    ensures id !in s.replays || s.replays[id].finished ==> r == s
    ensures id in s.replays && !s.replays[id].finished && s.replays[id].cursor < |s.history| ==>
      r.replays == s.replays[id := Replay(Send(s.replays[id].socket, s.history[s.replays[id].cursor]),
                                          s.replays[id].cursor + 1, false)]
    ensures id in s.replays && !s.replays[id].finished && s.replays[id].cursor >= |s.history| ==>
      r.replays == s.replays[id := s.replays[id].(finished := true)]
    ensures r.sockets == s.sockets && r.history == s.history && r.index == s.index && r.historySize == s.historySize
  {
    if id !in s.replays || s.replays[id].finished then s
    else
      var replay := s.replays[id];
      if replay.cursor < |s.history| then
        var item := s.history[replay.cursor];
        s.(replays := s.replays[id := Replay(Send(replay.socket, item), replay.cursor + 1, false)])
      else
        s.(replays := s.replays[id := replay.(finished := true)])
  }

  /** The connection handler resuming after `await this.sendHistory(socket)`:
      a connection whose loop is over joins the subscriber map, and in the
      same turn the handler logs `line` ("New client connected: " and the id)
      through a console built on this very stream, so the line is ingested
      like any other write and reaches the new subscriber too. For any other
      id nothing happens. */
  function Join(s: Server, id: ConnId, line: Chunk): (r: Server)
    ensures id in s.replays && s.replays[id].finished ==>
      && r.sockets.Keys == s.sockets.Keys + {id}
      && r.sockets[id].written == s.replays[id].socket.written + [line]
      && (forall other :: other in s.sockets && other != id ==>
            r.sockets[other].written == s.sockets[other].written + [line])
      && r.replays == s.replays - {id}
      && r.history == LastN(s.history + [line], s.historySize)
    ensures !(id in s.replays && s.replays[id].finished) ==> r == s
    ensures r.index == s.index && r.historySize == s.historySize
  {
    if id in s.replays && s.replays[id].finished then
      var registered := s.(sockets := s.sockets[id := s.replays[id].socket], replays := s.replays - {id});
      Ingest(registered, line)
    else s
  }

  /** A replay write failed: `sendHistory` rejects, the handler logs the error
      and returns, and the connection is never registered. Only a loop still
      writing can fail. */
  function ReplayFail(s: Server, id: ConnId): (r: Server)
    ensures id in s.replays && !s.replays[id].finished ==> r.replays == s.replays - {id}
    ensures !(id in s.replays && !s.replays[id].finished) ==> r == s
    ensures r.sockets == s.sockets && r.history == s.history && r.index == s.index && r.historySize == s.historySize
  {
    if id in s.replays && !s.replays[id].finished then s.(replays := s.replays - {id}) else s
  }

  /** `disconnect`: a no-op for an unknown id, otherwise that socket is ended,
      destroyed and removed. */
  function Disconnect(s: Server, id: ConnId): (r: Server)
    ensures id !in s.sockets ==> r == s
    ensures id !in r.sockets
    ensures r.sockets.Keys == s.sockets.Keys - {id}
    ensures forall other :: other in r.sockets ==> r.sockets[other] == s.sockets[other]
    ensures r.history == s.history && r.replays == s.replays && r.index == s.index && r.historySize == s.historySize
  {
    if id !in s.sockets then s else s.(sockets := s.sockets - {id})
  }

  /** The events the server reacts to. */
  datatype Event =
    | Write(chunk: Chunk)          // `_write` from the logging side
    | Accept(remoteAddress: string) // a client connects
    | ReplayDone(id: ConnId)        // a `sendHistory` loop turn completes
    | ReplayError(id: ConnId)       // a `sendHistory` write fails
    | Resume(id: ConnId, line: Chunk) // the handler's `await` of `sendHistory` resumes
    | WriteError(id: ConnId)        // a live write's callback reports an error
    | SocketError(id: ConnId)       // the socket emits `error`
    | SocketEnd(id: ConnId)         // the socket emits `end`

  function Step(s: Server, e: Event): Server
  {
    match e
    case Write(chunk) => Ingest(s, chunk)
    case Accept(address) => Connect(s, address)
    case ReplayDone(id) => ReplayStep(s, id)
    case ReplayError(id) => ReplayFail(s, id)
    case Resume(id, line) => Join(s, id, line)
    case WriteError(id) => Disconnect(s, id)
    case SocketError(id) => Disconnect(s, id)
    case SocketEnd(id) => Disconnect(s, id)
  }

  function Run(s: Server, events: seq<Event>): Server
    decreases |events|
  {
    if |events| == 0 then s else Run(Step(s, events[0]), events[1..])
  }

  /** What holds in every reachable state: the history is within bounds,
      every id in use was issued from an earlier index, no id is both
      replaying and registered, a replay's cursor counts the writes made to
      its socket, and ids carry their socket's address. */
  ghost predicate Inv(s: Server) {
    && |s.history| <= s.historySize
    && (forall id :: id in s.sockets ==> id.index < s.index && s.sockets[id].remoteAddress == id.address)
    && (forall id :: id in s.replays ==> id.index < s.index && s.replays[id].socket.remoteAddress == id.address)
    && (forall id :: id in s.replays ==> s.replays[id].cursor == |s.replays[id].socket.written|)
    && s.sockets.Keys !! s.replays.Keys
  }

  /** Every event keeps the invariant, and a freshly accepted connection gets
      an id no registered or replaying connection has. */
  lemma StepInv(s: Server, e: Event)
    requires Inv(s)
    ensures Inv(Step(s, e))
    ensures e.Accept? ==> ConnId(e.remoteAddress, s.index) !in s.sockets && ConnId(e.remoteAddress, s.index) !in s.replays
    ensures Step(s, e).index >= s.index
    ensures e.Accept? <==> Step(s, e).index > s.index
  {
  }

  /** A connection joins the subscriber map only when its handler resumes
      after a replay loop that ran to its end, with as many successful history
      writes as the cursor went through, followed by the handler's own line. */
  lemma JoinsOnlyAfterReplay(s: Server, e: Event, id: ConnId)
    requires Inv(s)
    requires id in Step(s, e).sockets && id !in s.sockets
    ensures e.Resume? && e.id == id && id in s.replays && s.replays[id].finished
    ensures |s.replays[id].socket.written| == s.replays[id].cursor
    ensures Step(s, e).sockets[id].written == s.replays[id].socket.written + [e.line]
  {
  }

  /** The ids handed out by the `Accept` events of a run, in order. */
  function Issued(s: Server, events: seq<Event>): seq<ConnId>
    decreases |events|
  {
    if |events| == 0 then []
    else
      var first := if events[0].Accept? then [ConnId(events[0].remoteAddress, s.index)] else [];
      first + Issued(Step(s, events[0]), events[1..])
  }

  /** Connection ids are distinct: within a run, later connections get
      strictly larger indices, and all of them are at least the starting index. */
  lemma {:induction false} IssuedDistinct(s: Server, events: seq<Event>)
    requires Inv(s)
    ensures forall i :: 0 <= i < |Issued(s, events)| ==> Issued(s, events)[i].index >= s.index
    ensures forall i, j :: 0 <= i < j < |Issued(s, events)| ==> Issued(s, events)[i].index < Issued(s, events)[j].index
    decreases |events|
  {
    if |events| > 0 {
      var next := Step(s, events[0]);
      StepInv(s, events[0]);
      IssuedDistinct(next, events[1..]);
      var rest := Issued(next, events[1..]);
      if events[0].Accept? {
        assert forall i :: 0 <= i < |rest| ==> rest[i].index >= next.index > s.index;
      }
    }
  }

  /** The events of writing `chunks` one after another. */
  function Writes(chunks: seq<Chunk>): seq<Event>
  {
    seq(|chunks|, i requires 0 <= i < |chunks| => Write(chunks[i]))
  }

  lemma WritesTail(chunks: seq<Chunk>)
    requires |chunks| > 0
    ensures Writes(chunks)[0] == Write(chunks[0]) && Writes(chunks)[1..] == Writes(chunks[1..])
  {
  }

  /** Ingesting chunks one after another keeps exactly the last `historySize`
      of everything: with an initially empty history, the last
      min(n, historySize) chunks, oldest first. */
  lemma {:induction false} IngestAll(s: Server, chunks: seq<Chunk>)
    requires |s.history| <= s.historySize
    ensures Run(s, Writes(chunks)).history == LastN(s.history + chunks, s.historySize)
    decreases |chunks|
  {
    if |chunks| == 0 {
      assert s.history + chunks == s.history;
    } else {
      var next := Ingest(s, chunks[0]);
      WritesTail(chunks);
      assert Run(s, Writes(chunks)) == Run(next, Writes(chunks[1..]));
      IngestAll(next, chunks[1..]);
      HistoryStep(s.history, chunks, s.historySize);
    }
  }

  lemma HistoryStep(history: seq<Chunk>, chunks: seq<Chunk>, n: nat)
    requires |chunks| > 0
    ensures LastN(LastN(history + [chunks[0]], n) + chunks[1..], n) == LastN(history + chunks, n)
  {
    LastNAppend(history + [chunks[0]], chunks[1..], n);
    assert history + [chunks[0]] + chunks[1..] == history + chunks;
  }

  /** Trimming before appending more loses nothing the final trim keeps. */
  lemma LastNAppend<T>(a: seq<T>, b: seq<T>, n: nat)
    ensures LastN(LastN(a, n) + b, n) == LastN(a + b, n)
  {
  }

  /** With no other event in between, `|history| + 1` replay turns send the
      whole history in order, and the handler resuming registers the
      connection and sends it the connected line. */
  lemma ReplayAlone(s: Server, id: ConnId, line: Chunk)
    requires Inv(s) && id in s.replays && s.replays[id].cursor == 0 && !s.replays[id].finished
    ensures var r := Run(s, seq(|s.history| + 1, _ => ReplayDone(id)) + [Resume(id, line)]);
      && id in r.sockets && r.sockets[id].written == s.replays[id].socket.written + s.history + [line]
      && r.history == LastN(s.history + [line], s.historySize)
  {
    ReplayFrom(s, id, line, |s.history| + 1);
  }

  lemma {:induction false} ReplayFrom(s: Server, id: ConnId, line: Chunk, k: nat)
    requires id in s.replays && !s.replays[id].finished && s.replays[id].cursor <= |s.history|
    requires k == |s.history| - s.replays[id].cursor + 1
    ensures var r := Run(s, seq(k, _ => ReplayDone(id)) + [Resume(id, line)]);
      && id in r.sockets
      && r.sockets[id].written == s.replays[id].socket.written + s.history[s.replays[id].cursor..] + [line]
      && r.history == LastN(s.history + [line], s.historySize)
    decreases k
  {
    var events := seq(k, _ => ReplayDone(id)) + [Resume(id, line)];
    var c := s.replays[id].cursor;
    var next := ReplayStep(s, id);
    assert Run(s, events) == Run(next, events[1..]);
    if c < |s.history| {
      assert events[1..] == seq(k - 1, _ => ReplayDone(id)) + [Resume(id, line)];
      ReplayFrom(next, id, line, k - 1);
      assert s.history[c..] == [s.history[c]] + s.history[c + 1..];
    } else {
      assert events[1..] == [Resume(id, line)];
      assert Run(next, events[1..]) == Join(next, id, line);
      assert s.history[c..] == [];
    }
  }

  /** Running two event lists one after the other. */
  lemma {:induction false} RunAppend(s: Server, first: seq<Event>, second: seq<Event>)
    ensures Run(s, first + second) == Run(Run(s, first), second)
    decreases |first|
  {
    if |first| > 0 {
      assert (first + second)[1..] == first[1..] + second;
      RunAppend(Step(s, first[0]), first[1..], second);
    } else {
      assert first + second == second;
    }
  }

  /** The replay is a cursor over the live history: when a chunk is written
      during a replay of a full history, the oldest item is evicted, the items
      shift down, and the item after the cursor is never sent. */
  lemma ReplaySkipsOnEviction(a: Chunk, b: Chunk, c: Chunk, line: Chunk)
    ensures
      var s0 := Server(2, [a, b], map[], 0, map[]);
      var id := ConnId("client", 0);
      var r := Run(s0, [Accept("client"), ReplayDone(id), Write(c), ReplayDone(id), ReplayDone(id), Resume(id, line)]);
      id in r.sockets && r.sockets[id].written == [a, c, line] && r.history == [c, line]
  {
    var s0 := Server(2, [a, b], map[], 0, map[]);
    var id := ConnId("client", 0);
    var loop := [Accept("client"), ReplayDone(id), Write(c), ReplayDone(id), ReplayDone(id)];
    assert loop + [Resume(id, line)]
        == [Accept("client"), ReplayDone(id), Write(c), ReplayDone(id), ReplayDone(id), Resume(id, line)];
    RunAppend(s0, loop, [Resume(id, line)]);
    SkipBeforeJoin(a, b, c);
    var s5 := Run(s0, loop);
    assert Run(s5, [Resume(id, line)]) == Join(s5, id, line);
    assert s5.history + [line] == [b, c, line];
    assert [b, c, line][1..] == [c, line];
  }

  /** The replay loop of `ReplaySkipsOnEviction` up to its end: the item `b`
      was skipped and the handler has not resumed yet. */
  lemma SkipBeforeJoin(a: Chunk, b: Chunk, c: Chunk)
    ensures
      var s0 := Server(2, [a, b], map[], 0, map[]);
      var id := ConnId("client", 0);
      var r := Run(s0, [Accept("client"), ReplayDone(id), Write(c), ReplayDone(id), ReplayDone(id)]);
      && r.sockets == map[] && r.historySize == 2 && r.history == [b, c]
      && id in r.replays && r.replays[id] == Replay(Socket("client", [a, c]), 2, true)
  {
    var s0 := Server(2, [a, b], map[], 0, map[]);
    var id := ConnId("client", 0);
    var events := [Accept("client"), ReplayDone(id), Write(c), ReplayDone(id), ReplayDone(id)];
    var s1 := Connect(s0, "client");
    assert s1.replays[id] == Replay(Socket("client", []), 0, false);
    var s2 := ReplayStep(s1, id);
    assert s2.replays[id] == Replay(Socket("client", [a]), 1, false);
    var s3 := Ingest(s2, c);
    assert s3.history == [b, c] by {
      assert s2.history + [c] == [a, b, c];
      assert [a, b, c][1..] == [b, c];
    }
    var s4 := ReplayStep(s3, id);
    assert s4.replays[id] == Replay(Socket("client", [a, c]), 2, false);
    var s5 := ReplayStep(s4, id);
    assert Run(s0, events) == Run(s1, events[1..]);
    assert Run(s1, events[1..]) == Run(s2, events[2..]);
    assert Run(s2, events[2..]) == Run(s3, events[3..]);
    assert Run(s3, events[3..]) == Run(s4, events[4..]);
    assert Run(s4, events[4..]) == Run(s5, []);
  }

  /** Between the end of the replay loop and the handler resuming, the
      connection is neither replaying nor subscribed: a chunk written in that
      window reaches the history but never the client, which receives only
      the handler's connected line. Written after the handler resumed, the
      same chunk is delivered after that line. */
  lemma LostBeforeJoin(c: Chunk, line: Chunk)
    ensures
      var id := ConnId("client", 0);
      var r := Run(NewServer(), [Accept("client"), ReplayDone(id), Write(c), Resume(id, line)]);
      id in r.sockets && r.sockets[id].written == [line] && r.history == [c, line]
    ensures
      var id := ConnId("client", 0);
      var r := Run(NewServer(), [Accept("client"), ReplayDone(id), Resume(id, line), Write(c)]);
      id in r.sockets && r.sockets[id].written == [line, c] && r.history == [line, c]
  {
    WrittenBeforeJoin(c, line);
    WrittenAfterJoin(c, line);
  }

  /** A fresh server after one connection whose replay of the empty history
      has just ended. */
  lemma ReplayOver()
    ensures
      var id := ConnId("client", 0);
      var r := Run(NewServer(), [Accept("client"), ReplayDone(id)]);
      && r.sockets == map[] && r.history == [] && r.historySize == 10000
      && r.replays == map[id := Replay(Socket("client", []), 0, true)]
  {
    var id := ConnId("client", 0);
    var events := [Accept("client"), ReplayDone(id)];
    var s1 := Connect(NewServer(), "client");
    var s2 := ReplayStep(s1, id);
    assert Run(NewServer(), events) == Run(s1, events[1..]);
    assert Run(s1, events[1..]) == Run(s2, []);
  }

  lemma WrittenBeforeJoin(c: Chunk, line: Chunk)
    ensures
      var id := ConnId("client", 0);
      var r := Run(NewServer(), [Accept("client"), ReplayDone(id), Write(c), Resume(id, line)]);
      id in r.sockets && r.sockets[id].written == [line] && r.history == [c, line]
  {
    var id := ConnId("client", 0);
    var start := [Accept("client"), ReplayDone(id)];
    var rest := [Write(c), Resume(id, line)];
    assert start + rest == [Accept("client"), ReplayDone(id), Write(c), Resume(id, line)];
    RunAppend(NewServer(), start, rest);
    ReplayOver();
    var s2 := Run(NewServer(), start);
    var s3 := Ingest(s2, c);
    assert s3.history == [c] && s3.sockets == map[] && s3.replays == s2.replays;
    var s4 := Join(s3, id, line);
    assert s4.history == [c, line];
    assert Run(s2, rest) == Run(s3, rest[1..]);
    assert Run(s3, rest[1..]) == Run(s4, []);
  }

  lemma WrittenAfterJoin(c: Chunk, line: Chunk)
    ensures
      var id := ConnId("client", 0);
      var r := Run(NewServer(), [Accept("client"), ReplayDone(id), Resume(id, line), Write(c)]);
      id in r.sockets && r.sockets[id].written == [line, c] && r.history == [line, c]
  {
    var id := ConnId("client", 0);
    var start := [Accept("client"), ReplayDone(id)];
    var rest := [Resume(id, line), Write(c)];
    assert start + rest == [Accept("client"), ReplayDone(id), Resume(id, line), Write(c)];
    RunAppend(NewServer(), start, rest);
    ReplayOver();
    JoinThenWrite(Run(NewServer(), start), id, line, c);
  }

  /** The handler resuming and then one write, from a finished replay of an
      empty history. */
  lemma JoinThenWrite(s: Server, id: ConnId, line: Chunk, c: Chunk)
    requires s.sockets == map[] && s.history == [] && s.historySize >= 2
    requires s.replays == map[id := Replay(Socket(id.address, []), 0, true)]
    ensures var r := Run(s, [Resume(id, line), Write(c)]);
      id in r.sockets && r.sockets[id].written == [line, c] && r.history == [line, c]
  {
    var rest := [Resume(id, line), Write(c)];
    var s3 := Join(s, id, line);
    assert s3.sockets.Keys == {id} && s3.sockets[id].written == [line];
    assert s3.history == LastN([line], s.historySize) == [line];
    var s4 := Ingest(s3, c);
    assert s4.sockets[id].written == [line, c];
    assert s4.history == LastN([line, c], s.historySize) == [line, c];
    assert Run(s, rest) == Run(s3, rest[1..]);
    assert Run(s3, rest[1..]) == Run(s4, []);
  }
}

=== FILE: tagged.dfy ===
/** Level gating and the target registry of the tagged logger
    (`ExeLoggerTagged`). The class-wide static fields become one explicit
    `Registry` value advanced by pure functions. */
module Tagged {
  import opened Wrappers
  import opened Format

  /** A log level. The level enum is numeric: levels compare with `>=`, and
      the value 0 is falsy. */
  type Level = int

  predicate Truthy(level: Level) {
    level != 0
  }

  /** An output target (a callback), identified by a number. */
  type TargetId = nat

  /** Per-level target lists. */
  type Targets = map<Level, seq<TargetId>>

  /** The static state: coloured and raw target lists, per-tag levels, the
      main level and the `enabled` switch. */
  datatype Registry = Registry(
    targets: Targets,
    targetsRaw: Targets,
    levels: map<string, Level>,
    mainLevel: Level,
    enabled: bool)

  /** The numeric values of the five enum members. */
  datatype LevelValues = LevelValues(severe: Level, warning: Level, info: Level, debug: Level, drown: Level)

  /** The static initialisers: no targets, no tag levels, main level INFO, enabled. */
  function Initial(values: LevelValues): (r: Registry)
    ensures r.enabled && r.mainLevel == values.info
    ensures r.levels == map[] && r.targets == map[] && r.targetsRaw == map[]
  {
    Registry(map[], map[], map[], values.info, true)
  }

  /** The targets registered under `level`, in registration order. */
  function Lookup(targets: Targets, level: Level): seq<TargetId>
  {
    if level in targets then targets[level] else []
  }

  function Occurrences(levels: seq<Level>, level: Level): nat
  {
    if |levels| == 0 then 0
    else Occurrences(levels[..|levels| - 1], level) + (if levels[|levels| - 1] == level then 1 else 0)
  }

  function Repeat(target: TargetId, n: nat): (r: seq<TargetId>)
  {
    seq(n, _ => target)
  }

  /** The loop of `addTarget`: `target` is pushed onto the list of each level
      in turn, creating the list when it is missing. */
  function Register(targets: Targets, target: TargetId, levels: seq<Level>): (r: Targets)
    ensures forall l :: Lookup(r, l) == Lookup(targets, l) + Repeat(target, Occurrences(levels, l))
  {
    if |levels| == 0 then targets
    else
      var front := Register(targets, target, levels[..|levels| - 1]);
      var last := levels[|levels| - 1];
      var r := front[last := Lookup(front, last) + [target]];
      assert forall l :: Lookup(r, l) == Lookup(targets, l) + Repeat(target, Occurrences(levels, l)) by {
        forall l ensures Lookup(r, l) == Lookup(targets, l) + Repeat(target, Occurrences(levels, l)) {
          RegisterStep(targets, front, target, levels, l);
        }
      }
      r
  }

  /** Pushing onto the last level's list extends that level's count by one
      and leaves every other level as it was. */
  lemma RegisterStep(targets: Targets, front: Targets, target: TargetId, levels: seq<Level>, l: Level)
    requires |levels| > 0
    requires Lookup(front, l) == Lookup(targets, l) + Repeat(target, Occurrences(levels[..|levels| - 1], l))
    ensures Lookup(front[levels[|levels| - 1] := Lookup(front, levels[|levels| - 1]) + [target]], l)
        == Lookup(targets, l) + Repeat(target, Occurrences(levels, l))
  {
    var last := levels[|levels| - 1];
    var k := Occurrences(levels[..|levels| - 1], l);
    var r := front[last := Lookup(front, last) + [target]];
    assert Occurrences(levels, l) == k + (if last == l then 1 else 0);
    if l == last {
      assert Lookup(r, l) == Lookup(front, l) + [target];
      PushOne(Lookup(targets, l), Lookup(front, l), target, k);
    } else {
      assert l in r <==> l in front;
      assert Lookup(r, l) == Lookup(front, l);
    }
  }

  lemma PushOne(before: seq<TargetId>, current: seq<TargetId>, target: TargetId, k: nat)
    requires current == before + Repeat(target, k)
    ensures current + [target] == before + Repeat(target, k + 1)
  {
  }

  /** The levels a registration applies to: those given, or every level of
      the enum (`Object.values(ExeLoggerLevel)`) when none are given. */
  function Registered(levels: seq<Level>, allLevels: seq<Level>): seq<Level>
  {
    if |levels| == 0 then allLevels else levels
  }

  /** `addTarget`: register a coloured-prefix target. */
  function AddTarget(reg: Registry, target: TargetId, levels: seq<Level>, allLevels: seq<Level>): (r: Registry)
    ensures |levels| == 0 ==> forall l :: l in allLevels ==> Lookup(r.targets, l) == Lookup(reg.targets, l) + Repeat(target, Occurrences(allLevels, l))
    ensures |levels| > 0 ==> forall l :: Lookup(r.targets, l) == Lookup(reg.targets, l) + Repeat(target, Occurrences(levels, l))
    ensures forall l :: l !in Registered(levels, allLevels) ==> Lookup(r.targets, l) == Lookup(reg.targets, l)
    ensures r.targetsRaw == reg.targetsRaw && r.levels == reg.levels && r.mainLevel == reg.mainLevel && r.enabled == reg.enabled
  {
    NotOccurring(Registered(levels, allLevels));
    reg.(targets := Register(reg.targets, target, Registered(levels, allLevels)))
  }

  /** `addTargetRaw`: register a raw-prefix target. */
  function AddTargetRaw(reg: Registry, target: TargetId, levels: seq<Level>, allLevels: seq<Level>): (r: Registry)
    ensures |levels| == 0 ==> forall l :: l in allLevels ==> Lookup(r.targetsRaw, l) == Lookup(reg.targetsRaw, l) + Repeat(target, Occurrences(allLevels, l))
    ensures |levels| > 0 ==> forall l :: Lookup(r.targetsRaw, l) == Lookup(reg.targetsRaw, l) + Repeat(target, Occurrences(levels, l))
    ensures forall l :: l !in Registered(levels, allLevels) ==> Lookup(r.targetsRaw, l) == Lookup(reg.targetsRaw, l)
    ensures r.targets == reg.targets && r.levels == reg.levels && r.mainLevel == reg.mainLevel && r.enabled == reg.enabled
  {
    NotOccurring(Registered(levels, allLevels));
    reg.(targetsRaw := Register(reg.targetsRaw, target, Registered(levels, allLevels)))
  }

  lemma {:induction false} NotOccurring(levels: seq<Level>)
    ensures forall l :: l !in levels ==> Occurrences(levels, l) == 0
  {
    if |levels| > 0 {
      var front := levels[..|levels| - 1];
      NotOccurring(front);
      assert levels == front + [levels[|levels| - 1]];
      assert forall l :: l in front ==> l in levels;
    }
  }

  /** A sequence of `addTarget` calls, oldest first. */
  datatype Registration = Registration(target: TargetId, levels: seq<Level>)

  function RegisterAll(targets: Targets, regs: seq<Registration>, allLevels: seq<Level>): Targets
  {
    if |regs| == 0 then targets
    else
      var last := regs[|regs| - 1];
      Register(RegisterAll(targets, regs[..|regs| - 1], allLevels), last.target, Registered(last.levels, allLevels))
  }

  /** The targets a list of registrations puts under `level`, each repeated
      once per time the registration names the level, oldest first. */
  function Subscribed(regs: seq<Registration>, level: Level, allLevels: seq<Level>): seq<TargetId>
  {
    if |regs| == 0 then []
    else
      var last := regs[|regs| - 1];
      Subscribed(regs[..|regs| - 1], level, allLevels)
        + Repeat(last.target, Occurrences(Registered(last.levels, allLevels), level))
  }

  /** Starting from no targets, the list under a level holds exactly the
      targets registered for it, in registration order. */
  lemma {:induction false} RegistrationOrder(regs: seq<Registration>, level: Level, allLevels: seq<Level>)
    ensures Lookup(RegisterAll(map[], regs, allLevels), level) == Subscribed(regs, level, allLevels)
  {
    if |regs| > 0 {
      RegistrationOrder(regs[..|regs| - 1], level, allLevels);
    }
  }

  /** One call of a target: `target(prefix, ...parameters)`. */
  datatype Call = Call(target: TargetId, prefix: string, args: seq<Formatted>)

  /** The `for … of` loop of `sendToTargets`: every target, in list order, is
      called with the same prefix and arguments. */
  function Deliver(targets: seq<TargetId>, prefix: string, args: seq<Formatted>): (r: seq<Call>)
    ensures |r| == |targets|
    ensures forall i :: 0 <= i < |r| ==> r[i] == Call(targets[i], prefix, args)
  {
    if |targets| == 0 then [] else [Call(targets[0], prefix, args)] + Deliver(targets[1..], prefix, args)
  }

  /** `sendToTargets` / `sendToTargetsRaw`: call the targets registered under
      `level`; nothing when there are none. */
  function SendToTargets(targets: Targets, level: Level, prefix: string, args: seq<Formatted>): (r: seq<Call>)
    ensures |r| == |Lookup(targets, level)|
    ensures level !in targets ==> r == []
    ensures forall i :: 0 <= i < |r| ==> r[i].target == Lookup(targets, level)[i] && r[i].prefix == prefix && r[i].args == args
  {
    if level in targets && |targets[level]| > 0 then Deliver(targets[level], prefix, args) else []
  }

  /** JavaScript's `String.prototype.trim` white space: the ASCII blanks,
      no-break spaces, line and paragraph separators and the Unicode space
      separators. */
  predicate IsWhiteSpace(c: char) {
    || c == '\t' || c == '\n' || c == '\U{000B}' || c == '\U{000C}' || c == '\r' || c == ' '
    || c == '\U{00A0}' || c == '\U{1680}' || ('\U{2000}' <= c <= '\U{200A}')
    || c == '\U{2028}' || c == '\U{2029}' || c == '\U{202F}' || c == '\U{205F}'
    || c == '\U{3000}' || c == '\U{FEFF}'
  }

  function TrimStart(s: string): string
  {
    if |s| > 0 && IsWhiteSpace(s[0]) then TrimStart(s[1..]) else s
  }

  function TrimEnd(s: string): string
  {
    if |s| > 0 && IsWhiteSpace(s[|s| - 1]) then TrimEnd(s[..|s| - 1]) else s
  }

  function Trim(s: string): string
  {
    TrimEnd(TrimStart(s))
  }

  /** A tag "with content": some character is not white space. */
  predicate HasContent(tag: string) {
    exists i :: 0 <= i < |tag| && !IsWhiteSpace(tag[i])
  }

  /** `tag.trim().length` is non-zero exactly when the tag has content. */
  lemma TrimLength(s: string)
    ensures |Trim(s)| > 0 <==> HasContent(s)
  {
    TrimStartContent(s);
    TrimEndContent(TrimStart(s));
  }

  lemma {:induction false} TrimStartContent(s: string)
    ensures HasContent(TrimStart(s)) <==> HasContent(s)
  {
    if |s| > 0 && IsWhiteSpace(s[0]) {
      TrimStartContent(s[1..]);
      if HasContent(s) {
        var i :| 0 <= i < |s| && !IsWhiteSpace(s[i]);
        assert s[1..][i - 1] == s[i];
      }
      if HasContent(s[1..]) {
        var i :| 0 <= i < |s| - 1 && !IsWhiteSpace(s[1..][i]);
        assert s[i + 1] == s[1..][i];
      }
    }
  }

  lemma {:induction false} TrimEndContent(s: string)
    ensures |TrimEnd(s)| > 0 <==> HasContent(s)
  {
    if |s| > 0 && IsWhiteSpace(s[|s| - 1]) {
      var t := s[..|s| - 1];
      TrimEndContent(t);
      if HasContent(s) {
        var i :| 0 <= i < |s| && !IsWhiteSpace(s[i]);
        assert t[i] == s[i];
      }
      if HasContent(t) {
        var i :| 0 <= i < |t| && !IsWhiteSpace(t[i]);
        assert s[i] == t[i];
      }
    } else if |s| > 0 {
      assert !IsWhiteSpace(s[|s| - 1]);
    }
  }

  /** The properties a plain object inherits from `Object.prototype`. Read
      from `levels` under a tag without an own entry, each gives a function
      or, for `__proto__`, the prototype object itself. */
  const Inherited: set<string> := {
    "constructor", "hasOwnProperty", "isPrototypeOf", "propertyIsEnumerable",
    "toLocaleString", "toString", "valueOf", "__defineGetter__", "__defineSetter__",
    "__lookupGetter__", "__lookupSetter__", "__proto__" }

  /** The one inherited property with a setter: assigning a number to it
      does nothing. */
  const ProtoKey: string := "__proto__"

  /** What `levels[tag]` reads: a level stored under the tag, an inherited
      property, or `undefined`. */
  datatype Entry = Own(level: Level) | FromPrototype | Undefined

  function Read(levels: map<string, Level>, tag: string): Entry
  {
    if tag in levels then Own(levels[tag]) else if tag in Inherited then FromPrototype else Undefined
  }

  /** JavaScript truthiness of what was read: an inherited function or object
      is truthy, `undefined` is not. */
  predicate EntryTruthy(e: Entry) {
    match e
    case Own(level) => Truthy(level)
    case FromPrototype => true
    case Undefined => false
  }

  /** `levels[tag] >= level`: a function, an object or `undefined` compares
      as NaN, so only a stored level can pass. */
  predicate EntryAtLeast(e: Entry, level: Level) {
    e.Own? && e.level >= level
  }

  /** `levels[tag] = level`: creates or overwrites the entry, except that
      `__proto__` without an entry of its own goes to the prototype's setter,
      which ignores a number. */
  function Assign(levels: map<string, Level>, tag: string, level: Level): map<string, Level>
  {
    if tag == ProtoKey && tag !in levels then levels else levels[tag := level]
  }

  /** Whether `levels[tag] = level` stores the level. */
  predicate Stores(levels: map<string, Level>, tag: string) {
    tag != ProtoKey || tag in levels
  }

  /** `setLevel`: a tag with content gets its own level; otherwise (no tag,
      empty or blank tag) the main level is set. */
  function SetLevel(reg: Registry, level: Level, tag: Option<string>): (r: Registry)
    ensures tag.Some? && HasContent(tag.value) && Stores(reg.levels, tag.value) ==>
      r.levels == reg.levels[tag.value := level] && r.mainLevel == reg.mainLevel
    ensures tag.Some? && HasContent(tag.value) && !Stores(reg.levels, tag.value) ==> r == reg
    ensures !(tag.Some? && HasContent(tag.value)) ==>
      r.mainLevel == level && r.levels == reg.levels
    ensures r.targets == reg.targets && r.targetsRaw == reg.targetsRaw && r.enabled == reg.enabled
  {
    TrimLength(tag.GetOr(""));
    if tag.Some? && |tag.value| > 0 && |Trim(tag.value)| > 0 then
      reg.(levels := Assign(reg.levels, tag.value, level))
    else
      reg.(mainLevel := level)
  }

  /** The argument and result of `setLevels` / `getLevels`. */
  datatype LevelConfig = LevelConfig(main: Level, levels: map<string, Level>)

  function SetLevels(reg: Registry, config: LevelConfig): (r: Registry)
    ensures r.targets == reg.targets && r.targetsRaw == reg.targetsRaw && r.enabled == reg.enabled
  {
    reg.(mainLevel := config.main, levels := config.levels)
  }

  function GetLevels(reg: Registry): LevelConfig
  {
    LevelConfig(reg.mainLevel, reg.levels)
  }

  /** `getLevels` after `setLevels` returns exactly what was set, and setting
      what `getLevels` returned changes nothing. */
  lemma LevelsRoundTrip(reg: Registry, config: LevelConfig)
    ensures GetLevels(SetLevels(reg, config)) == config
    ensures SetLevels(reg, GetLevels(reg)) == reg
  {
  }

  /** A logger instance: its tag and optional name. */
  datatype Logger = Logger(tag: string, name: Option<string>)

  /** The constructor: a truthy level is set for the tag through `setLevel`. */
  function NewLogger(reg: Registry, tag: string, name: Option<string>, level: Option<Level>): (r: (Registry, Logger))
    ensures r.1 == Logger(tag, name)
    ensures level.None? || !Truthy(level.value) ==> r.0 == reg
    ensures level.Some? && Truthy(level.value) && HasContent(tag) && Stores(reg.levels, tag) ==>
      r.0 == reg.(levels := reg.levels[tag := level.value])
    ensures level.Some? && Truthy(level.value) && HasContent(tag) && !Stores(reg.levels, tag) ==>
      r.0 == reg
    ensures level.Some? && Truthy(level.value) && !HasContent(tag) ==>
      r.0 == reg.(mainLevel := level.value)
  {
    var reg' := if level.Some? && Truthy(level.value) then SetLevel(reg, level.value, Some(tag)) else reg;
    (reg', Logger(tag, name))
  }

  /** The five logging methods. */
  datatype Kind = Severe | Warn | Info | Debug | Drown

  function LevelOf(values: LevelValues, kind: Kind): Level
  {
    match kind
    case Severe => values.severe
    case Warn => values.warning
    case Info => values.info
    case Debug => values.debug
    case Drown => values.drown
  }

  function Label(kind: Kind): string
  {
    match kind
    case Severe => "SEVERE"
    case Warn => "WARN  "
    case Info => "INFO  "
    case Debug => "DEBUG "
    case Drown => "DROWN "
  }

  /** Colour escape sequences of the terminal palette. */
  datatype Palette = Palette(red: string, yellow: string, blue: string, cyan: string, black: string, reset: string)

  function Colour(palette: Palette, kind: Kind): string
  {
    match kind
    case Severe => palette.red
    case Warn => palette.yellow
    case Info => palette.blue
    case Debug => palette.cyan
    case Drown => palette.black
  }

  /** The tag part of a prefix: the tag, then `|name` when the name is truthy. */
  function TagPart(logger: Logger): string
  {
    logger.tag + (if logger.name.Some? && |logger.name.value| > 0 then "|" + logger.name.value else "")
  }

  /** `formatPrefix`: `[timestamp][level name][tag|name]`, the timestamp being given. */
  function FormatPrefix(stamp: string, levelName: string, logger: Logger): (r: string)
    ensures |r| == |stamp| + |levelName| + |TagPart(logger)| + 6
    ensures r[0] == '[' && r[|r| - 1] == ']'
    ensures logger.name.Some? && |logger.name.value| > 0 ==>
      r[|r| - |logger.name.value| - 2..] == "|" + logger.name.value + "]"
    ensures r[|r| - |TagPart(logger)| - 2..] == "[" + TagPart(logger) + "]"
  {
    var r := "[" + stamp + "][" + levelName + "][" + TagPart(logger) + "]";
    assert r == ("[" + stamp + "][" + levelName + "]") + ("[" + TagPart(logger) + "]");
    r
  }

  /** The level that decides for a tag: its own when set and truthy; none
      for an inherited property without an entry of its own, which lets no
      message through; the main level otherwise. */
  function EffectiveLevel(reg: Registry, tag: string): Option<Level>
  {
    if tag in reg.levels && Truthy(reg.levels[tag]) then Some(reg.levels[tag])
    else if tag !in reg.levels && tag in Inherited then None
    else Some(reg.mainLevel)
  }

  predicate Permits(reg: Registry, tag: string, level: Level) {
    EffectiveLevel(reg, tag).Some? && EffectiveLevel(reg, tag).value >= level
  }

  /** `severe` / `warn` / `info` / `debug` / `drown` with formatted arguments
      `args`: the target calls made, coloured targets first, then raw ones. */
  function Log(reg: Registry, logger: Logger, kind: Kind, values: LevelValues, palette: Palette,
               stamp: string, args: seq<Formatted>): (r: seq<Call>)
    ensures !reg.enabled ==> r == []
    ensures r != [] ==> reg.enabled && Permits(reg, logger.tag, LevelOf(values, kind))
    ensures logger.tag in Inherited && logger.tag !in reg.levels ==> r == []
    ensures reg.enabled && Permits(reg, logger.tag, LevelOf(values, kind)) ==>
      r == SendToTargets(reg.targets, LevelOf(values, kind),
                         Colour(palette, kind) + FormatPrefix(stamp, Label(kind), logger) + palette.reset, args)
         + SendToTargets(reg.targetsRaw, LevelOf(values, kind), FormatPrefix(stamp, Label(kind), logger), args)
  {
    var level := LevelOf(values, kind);
    var entry := Read(reg.levels, logger.tag);
    if !reg.enabled then []
    else if (EntryTruthy(entry) && EntryAtLeast(entry, level)) || (!EntryTruthy(entry) && reg.mainLevel >= level) then
      var prefixRaw := FormatPrefix(stamp, Label(kind), logger);
      var prefix := Colour(palette, kind) + prefixRaw + palette.reset;
      SendToTargets(reg.targets, level, prefix, args) + SendToTargets(reg.targetsRaw, level, prefixRaw, args)
    else []
  }
}

=== FILE: wrappers.dfy ===
/** Wrappers shared by the model: an optional value and a value-or-error
    result. */
module Wrappers {

  /** A value that may be absent (JavaScript's `undefined`). */
  datatype Option<+T> = None | Some(value: T) {

    /** The value, or `default` when absent. */
    function GetOr(default: T): T {
      match this
      case Some(v) => v
      case None => default
    }
  }

  /** The outcome of an operation that may throw. */
  datatype Result<+T, +E> = Success(value: T) | Failure(error: E)
}
